=== FILE: README.md ===
# QR inventory: scan handling, screens and list search

A model of the logic inside a small browser stock tracker. An operator picks a
role (admin or staff), scans QR codes to add or remove stock, and browses a
searchable list. Three pieces carry behaviour and are modelled here as pure
Dafny functions over immutable data:

- **Scan handling** (`Scan`, over the store in `Inventory`). `handleScan`
  takes the store, the decoded QR text and the mode, and returns the new store
  and an outcome. In `add` mode it bumps the first record with that id or, when
  the operator names a new item, appends `{id, name, quantity: 1}`. In
  `remove` mode it subtracts a requested positive quantity that does not exceed
  the stock, or it refuses. The operator's answers to the two prompts are
  parameters. `nameReply` is `None` for a cancelled prompt. `qtyReply` is the
  already-parsed number, or `None` when parsing gives NaN.
- **Session and screens** (`Session`). The state is the role (`null`,
  `'admin'`, `'user'`), the view (`dashboard`, `add`, `remove`, `list`) and the
  store. Each button is an event. An event whose button is not rendered in the
  current state leaves the state unchanged. A scan on the add or remove screen
  runs the scan handler in that screen's mode.
- **List search** (`Search`). The list keeps the items whose lower-cased name
  or id contains the lower-cased search text. They stay in store order.

Properties proved: each branch of the scan handler, stated as a frame
condition; all-or-nothing outcomes; preservation of unique ids and
non-negative quantities; "stock per id equals the number of add scans" on a
fresh store; the screen transitions; the invariant that only an admin is ever
on the add screen, and hence that stock only grows for an admin; and for the
filter, a subsequence that is sound and complete for its substring predicate,
with the empty-search and case-folding laws.

Notes on the code as written:

- The role is set directly by two buttons, "Admin Access" and "Staff Access".
  The staff role is the string `'user'`.
- Restoring the saved store does not guard `JSON.parse`, so a malformed
  payload throws. That part is left out; see below.
- There is no separate role-select view. With no role, the role chooser is
  shown whatever `view` holds. Logout resets `view` to `dashboard`.

## Model

| member | source | states |
|---|---|---|
| Inventory.FindIndex | src/App.jsx:35-37 | the result is the position of the first record whose id equals the scanned text exactly (case-sensitive), or None exactly when no record has that id |
| Scan.HandleScan | src/App.jsx:30-74 | every outcome is all-or-nothing: the store changes exactly when the outcome is Incremented, Registered or Removed. No record is dropped, reordered, renamed or re-keyed. The store grows by one only on Registered, and remove never registers or increments. Unique ids and non-negative quantities are preserved |
| Scan.AddExisting | src/App.jsx:35-42 | an add scan of a known id raises that record's quantity by exactly 1 and leaves the length and every other record unchanged. No name is asked for. The outcome reports the name and the new stock |
| Scan.AddUnknown | src/App.jsx:43-49 | an add scan of an unknown id with a non-empty name appends exactly {id, name, 1} at the end. A cancelled or empty name leaves the store unchanged with no outcome |
| Scan.RemoveUnknown | src/App.jsx:53-71 | a remove scan of an unknown id leaves the store unchanged and reports not found |
| Scan.RemoveNonPositive | src/App.jsx:57-59 | a removal quantity that is missing, unparseable, zero or negative is a silent no-op with the store unchanged |
| Scan.RemoveTooMany | src/App.jsx:62-68 | a removal larger than the stored quantity is refused whole. The store is unchanged (no clamping) and the outcome is insufficient stock |
| Scan.RemoveValid | src/App.jsx:59-65 | a removal q with 0 < q <= quantity lowers that record by exactly q, to a non-negative value. The record is kept even at 0, and every other record is unchanged |
| Scan.AddScanQuantity | src/App.jsx:33-50 | one answered add scan raises the stock under the scanned id by one and leaves the stock under every other id unchanged |
| Scan.AddAllCounts | src/App.jsx:33-50 | after any run of answered add scans, each id holds its previous stock plus the number of scans that read it |
| Scan.FreshStoreCounts | src/App.jsx:33-50 | starting from an empty store, each id's stock equals the number of add scans that read it |
| Scan.Scenarios | src/App.jsx:30-74 | worked examples, store and outcome: registering Bolt gives 1 unit and Registered; a second add gives 2 and Incremented; removing 3 of 2 is refused with the store unchanged; removing 2 of 2 leaves the record at 0 and reports Removed |
| Scan.RemoveNeverRaises | src/App.jsx:53-69 | a remove scan never raises the stock held under any id, on any store |
| Search.LowerCharFolds | src/components/InventoryList.jsx:15-16 | a folded character is never an upper-case ASCII letter, and folding it again changes nothing |
| Search.LowerCharSameUpToCase | src/components/InventoryList.jsx:15-16 | two characters fold to the same character exactly when they are equal or are the same ASCII letter in upper and lower case |
| Search.Lower | src/components/InventoryList.jsx:15-16 | lower-casing keeps the length and folds each character independently |
| Search.LowerIdempotent | src/components/InventoryList.jsx:15-16 | lower-casing twice gives the same text as lower-casing once |
| Search.Includes | src/components/InventoryList.jsx:15-16 | the empty needle is always found; a found needle is no longer than the text; a text always contains itself |
| Search.IncludesIsSubstring | src/components/InventoryList.jsx:15-16 | the position-by-position `includes` returns true exactly when the needle occurs as a contiguous block of the haystack, in both directions |
| Search.Matches | src/components/InventoryList.jsx:15-16 | the empty search matches every item; a matching search is no longer than the name or the id; a search equal to the name up to case matches |
| Search.MatchesMeansSubstring | src/components/InventoryList.jsx:14-17 | an item passes the filter's test exactly when the folded search text is a substring of its folded name or of its folded id |
| Search.Filter | src/components/InventoryList.jsx:14-17 | the result is never longer than the store. Sound: every kept item is in the store and matches. Complete: every stored item that matches is kept |
| Search.FilterPositions | src/components/InventoryList.jsx:14-17 | the kept items sit at strictly increasing positions of the store, and a position is kept exactly when its item matches, so repeated records are kept as often as they are stored |
| Search.FilterCounts | src/components/InventoryList.jsx:14-17 | each record value occurs in the result as often as in the store when it matches, and not at all otherwise |
| Search.FilterIsSubsequence | src/components/InventoryList.jsx:14 | the filtered list sits at strictly increasing positions of the store, so it keeps the stored order |
| Search.FilterEmptySearch | src/components/InventoryList.jsx:11-16 | the initial empty search shows the whole store unchanged |
| Search.FilterCaseInsensitive | src/components/InventoryList.jsx:15-16 | searching for a text and for its lower-cased form gives identical lists |
| Search.SearchFindsIdInAnyCase | src/components/InventoryList.jsx:16 | an item is always shown when the search equals its id up to letter case |
| Search.LookupExactSearchFolded | src/components/InventoryList.jsx:14-17 | the scan lookup is case-sensitive but the list search is not: "abc123" does not find the record "ABC123" by scan, while the search shows it |
| Session.LogoutResets | src/App.jsx:119-120 | logout sets the role to none and the view to dashboard, and keeps the store |
| Session.ChooseRoleSets | src/App.jsx:91-99 | on the role chooser, "Admin Access" sets the role to admin and "Staff Access" sets it to user. Nothing else changes |
| Session.AddOnlyByAdmin | src/App.jsx:129-137 | any step that enters the add screen is "Add Stock", taken from the dashboard by an admin |
| Session.AdminOpensAdd | src/App.jsx:132-133 | an admin's "Add Stock" on the dashboard opens the add screen and changes nothing else |
| Session.ControlsOffScreen | src/App.jsx:78-174 | controls that are not rendered do nothing: a scan on the dashboard, on the list screen or with no role; "Add Stock", "Remove Stock" and "View Inventory" off the dashboard or with no role; the role buttons once a role is set; logout and "Back" on the role chooser; "Back" on the dashboard |
| Session.RemoveAndListForEitherRole | src/App.jsx:139-147 | from the dashboard, either role reaches the remove and the list screens. For staff, "Add Stock" is not on screen and changes nothing |
| Session.BackToDashboard | src/App.jsx:151-175 | "Back" on the add, remove or list screen returns to the dashboard and changes nothing else |
| Session.Step | src/App.jsx:91-174 | a control that is not rendered changes nothing. Only a scan touches the store, and a scan moves neither role nor screen. The role changes only through the role chooser or logout. No step drops a record or changes a record's id or name |
| Session.ScanOnAddScreen | src/App.jsx:151-156 | a scan on the add screen runs the handler in add mode: with the name prompt answered, the stock under the scanned id rises by one and the stock under every other id is unchanged |
| Session.ScanOnRemoveScreen | src/App.jsx:160-165 | a scan on the remove screen runs the handler in remove mode: a valid quantity q comes off the scanned record, which is kept, and every other record and the length are unchanged |
| Session.StepScreens | src/App.jsx:120-137 | every step keeps the screen facts: a signed-out session is on the dashboard, and only an admin is on the add screen |
| Session.RunScreens | src/App.jsx:120-137 | any sequence of user actions keeps the screen facts |
| Session.ReachableScreens | src/App.jsx:9-16 | from a fresh session over any restored store, every reachable state meets the screen facts |
| Session.StepConsistent | src/App.jsx:120-165 | every step keeps the screen facts together with unique ids and non-negative quantities in the store |
| Session.RunConsistent | src/App.jsx:120-165 | any sequence of user actions keeps those facts |
| Session.ReachableConsistent | src/App.jsx:9-16 | a session that starts with no role on the dashboard, over a valid restored store, stays consistent whatever the user does |
| Session.StockGrowsOnlyForAdmin | src/App.jsx:151-167 | in any state meeting the screen facts, over any store (including one with duplicate ids or negative quantities), a step that lengthens the store or raises any id's stock is a scan taken by an admin on the add screen |

## Left out

- Persistence (`src/App.jsx:13-22`): reading and writing `localStorage` and JSON are browser I/O. The restored store is the `saved` parameter of `Session.Start`. `JSON.parse` is not guarded, so a malformed payload throws. The model claims no recovery to an empty store.
- Validity of the restored store: nothing checks that a restored store has unique ids and non-negative quantities. `Session.ReachableConsistent` takes that as a requirement. The screen facts and `Session.StockGrowsOnlyForAdmin` hold without it. The scan handler itself works on any store and always uses the first matching record.
- Prompts, alerts and logging: `prompt`, `alert` and `console.log` are browser UI. Prompt answers are parameters. Alerts are the `Outcome` values.
- `parseInt`: its exact behaviour is not modelled. The removal reply arrives already parsed. A cancelled or empty reply becomes `"0"` and parses to 0, and unparseable text gives NaN. The model passes NaN as `None`; both fail the `> 0` test.
- Number representation: JavaScript numbers are floating point, and a restored payload may hold non-integer or non-numeric quantities. The model uses unbounded integers.
- In-place mutation: the source copies the array shallowly and then mutates the shared record (`src/App.jsx:39-40`, `60-63`). This also changes the record inside the previous state. The model builds a new store functionally, so the new state is the same but the old state is not modified.
- Modes other than `add` and `remove`: `handleScan` is only called with these two literals, so `Mode` has just these two values.
- The search text held by the list component (`src/components/InventoryList.jsx:11`, `28-29`) is a parameter of `Search.Filter`. Its reset when the list unmounts is not modelled.
- Search.Lower: only ASCII letters are folded, which is weaker than the full Unicode `toLowerCase`. That mapping belongs to the platform.
- Search.LowerChar: ASCII only, for the same reason.
- Scanner clearing: the camera wrapper clears itself after each read (`src/components/Scanner.jsx:24-25`), so one visit to a scan screen may take fewer scans than the model allows. The model accepts any sequence of `Scanned` events, which covers every sequence the app can produce.
- The camera wrapper `src/components/Scanner.jsx` is not modelled. It handles library set-up, async cleanup and clearing after each read. Each decoded text is one `Scanned` event.
- Presentational components (`src/components/Badge.jsx`, `src/components/BrandFooter.jsx`) and all markup and styling are left out. They hold no logic.

=== FILE: inventory.dfy ===
/** The item store: an ordered sequence of stock records, the exact,
    case-sensitive lookup by id the scan handler uses, and the two
    invariants the store is meant to keep. */
module Inventory {
  import opened Wrappers

  /** One stock record, `{id, name, quantity}`; `id` is the scanned QR text. */
  datatype Item = Item(id: string, name: string, quantity: int)

  type Inventory = seq<Item>

  /** No two records share an id. */
  ghost predicate UniqueIds(inv: Inventory) {
    forall i, j :: 0 <= i < j < |inv| ==> inv[i].id != inv[j].id
  }

  /** No record holds a negative quantity. */
  ghost predicate NonNegative(inv: Inventory) {
    forall i :: 0 <= i < |inv| ==> inv[i].quantity >= 0
  }

  ghost predicate Valid(inv: Inventory) {
    UniqueIds(inv) && NonNegative(inv)
  }

  /** `Array.prototype.findIndex` with `item.id === code`: the position of the
      FIRST record whose id equals `code` exactly, or None for -1. */
  function FindIndex(inv: Inventory, code: string): (r: Option<nat>)
    ensures r.Some? ==> r.value < |inv| && inv[r.value].id == code
    ensures r.Some? ==> forall k :: 0 <= k < r.value ==> inv[k].id != code
    ensures r.None? <==> forall k :: 0 <= k < |inv| ==> inv[k].id != code
    decreases |inv|
  {
    if |inv| == 0 then None
    else if inv[0].id == code then Some(0)
    else
      match FindIndex(inv[1..], code)
      case None => None
      case Some(i) => Some(i + 1)
  }

  /** The stock held under `code` as the scan handler sees it: the quantity of
      the record `FindIndex` selects, or 0 when there is none. */
  function QuantityOf(inv: Inventory, code: string): int {
    match FindIndex(inv, code)
    case Some(i) => inv[i].quantity
    case None => 0
  }

  /** Replacing a record by one with the same id does not move any lookup. */
  lemma FindIndexSameIds(inv: Inventory, i: nat, x: Item, code: string)
    requires i < |inv| && x.id == inv[i].id
    ensures FindIndex(inv[i := x], code) == FindIndex(inv, code)
  {
    var inv' := inv[i := x];
    assert forall k :: 0 <= k < |inv| ==> inv'[k].id == inv[k].id;
    match FindIndex(inv, code)
    case None =>
    case Some(j) =>
      assert inv'[j].id == code;
  }

  /** Appending a record leaves every lookup that already succeeded, and every
      lookup of another id, where it was. */
  lemma FindIndexAppend(inv: Inventory, x: Item, code: string)
    ensures FindIndex(inv, code).Some? ==> FindIndex(inv + [x], code) == FindIndex(inv, code)
    ensures FindIndex(inv, code).None? && x.id == code ==> FindIndex(inv + [x], code) == Some(|inv|)
    ensures x.id != code ==> FindIndex(inv + [x], code) == FindIndex(inv, code)
  {
    var inv' := inv + [x];
    assert forall k :: 0 <= k < |inv| ==> inv'[k] == inv[k];
    match FindIndex(inv, code)
    case Some(j) =>
      assert inv'[j].id == code;
    case None =>
      assert inv'[|inv|] == x;
  }
}

=== FILE: scan.dfy ===
/** The scan handler: what one decoded QR code does to the store in "add"
    or "remove" mode. The operator's replies to the two prompts are passed
    in; each is read only on the branch that would have shown its prompt. */
module Scan {
  import opened Wrappers
  import opened Inventory

  datatype Mode = Add | Remove

  /** What the operator is told (or not told) after a scan. */
  datatype Outcome =
    | Incremented(name: string, stock: int)              // "Added 1 to <name>. New Stock: <stock>"
    | Registered(name: string)                           // "Registered <name> with 1 unit."
    | Removed(amount: int, name: string, remaining: int) // "Removed <amount> from <name>. Remaining: ..."
    | NoOp                                               // no alert: prompt cancelled, empty, or quantity <= 0
    | NotFound                                           // "Item not found in inventory."
    | InsufficientStock                                  // "Insufficient stock!"
  {
    /** The outcomes that come with a new inventory being stored. */
    predicate Mutates() {
      Incremented? || Registered? || Removed?
    }
  }

  datatype ScanResult = ScanResult(inventory: Inventory, outcome: Outcome)

  /** The name prompt counts as answered only when the reply is a non-empty
      string: a cancelled prompt and an empty answer are both falsy. */
  predicate NameGiven(nameReply: Option<string>) {
    nameReply.Some? && nameReply.value != ""
  }

  /** The parsed removal quantity when it is a positive number; a cancelled or
      empty reply parses to 0 and an unparseable one to NaN, and neither
      passes the `> 0` test. */
  predicate QuantityGiven(qtyReply: Option<int>) {
    qtyReply.Some? && qtyReply.value > 0
  }

  function HandleScan(inv: Inventory, code: string, mode: Mode,
                      nameReply: Option<string>, qtyReply: Option<int>): (r: ScanResult)
    // all-or-nothing: the store changes exactly when the outcome says so
    ensures r.outcome.Mutates() <==> r.inventory != inv
    // no record is ever dropped, reordered, renamed or re-keyed
    ensures |inv| <= |r.inventory| <= |inv| + 1
    ensures forall k :: 0 <= k < |inv| ==>
              r.inventory[k].id == inv[k].id && r.inventory[k].name == inv[k].name
    // only a registration makes the store longer, and removal never does
    ensures |r.inventory| == |inv| + 1 <==> r.outcome.Registered?
    ensures mode == Remove ==> !r.outcome.Registered? && !r.outcome.Incremented?
    // the store invariants are kept
    ensures Valid(inv) ==> Valid(r.inventory)
  {
    match mode
    case Add =>
      (match FindIndex(inv, code)
      case Some(i) =>
        var bumped := inv[i].(quantity := inv[i].quantity + 1);
        assert inv[i := bumped][i] != inv[i];
        ScanResult(inv[i := bumped], Incremented(bumped.name, bumped.quantity))
      case None =>
        if NameGiven(nameReply) then
          ScanResult(inv + [Item(code, nameReply.value, 1)], Registered(nameReply.value))
        else
          ScanResult(inv, NoOp))
    case Remove =>
      match FindIndex(inv, code)
      case None => ScanResult(inv, NotFound)
      case Some(i) =>
        if !QuantityGiven(qtyReply) then
          ScanResult(inv, NoOp)
        else if inv[i].quantity >= qtyReply.value then
          var taken := inv[i].(quantity := inv[i].quantity - qtyReply.value);
          assert inv[i := taken][i] != inv[i];
          ScanResult(inv[i := taken], Removed(qtyReply.value, taken.name, taken.quantity))
        else
          ScanResult(inv, InsufficientStock)
  }

  /** `i` is the record `findIndex` selects for `code`: the first with that id. */
  ghost predicate FirstWithId(inv: Inventory, code: string, i: nat) {
    i < |inv| && inv[i].id == code && forall k :: 0 <= k < i ==> inv[k].id != code
  }

  ghost predicate Absent(inv: Inventory, code: string) {
    forall k :: 0 <= k < |inv| ==> inv[k].id != code
  }

  /** Adding a known id adds one unit to that record and touches nothing
      else; no name is asked for. */
  lemma AddExisting(inv: Inventory, code: string, i: nat,
                    nameReply: Option<string>, qtyReply: Option<int>)
    requires FirstWithId(inv, code, i)
    ensures var r := HandleScan(inv, code, Add, nameReply, qtyReply);
      && |r.inventory| == |inv|
      && r.inventory[i].id == code
      && r.inventory[i].name == inv[i].name
      && r.inventory[i].quantity == inv[i].quantity + 1
      && (forall k :: 0 <= k < |inv| && k != i ==> r.inventory[k] == inv[k])
      && r.outcome == Incremented(inv[i].name, inv[i].quantity + 1)
  {
  }

  /** Adding an unknown id registers exactly `{id, name, quantity: 1}` at the
      end when a name is given, and changes nothing otherwise. */
  lemma AddUnknown(inv: Inventory, code: string,
                   nameReply: Option<string>, qtyReply: Option<int>)
    requires Absent(inv, code)
    ensures var r := HandleScan(inv, code, Add, nameReply, qtyReply);
      if NameGiven(nameReply) then
        r.inventory == inv + [Item(code, nameReply.value, 1)] && r.outcome == Registered(nameReply.value)
      else
        r.inventory == inv && r.outcome == NoOp
  {
  }

  /** Removing an unknown id changes nothing and reports it. */
  lemma RemoveUnknown(inv: Inventory, code: string,
                      nameReply: Option<string>, qtyReply: Option<int>)
    requires Absent(inv, code)
    ensures HandleScan(inv, code, Remove, nameReply, qtyReply) == ScanResult(inv, NotFound)
  {
  }

  /** A removal quantity that is missing, unparseable, zero or negative is
      silently ignored. */
  lemma RemoveNonPositive(inv: Inventory, code: string, i: nat,
                          nameReply: Option<string>, qtyReply: Option<int>)
    requires FirstWithId(inv, code, i)
    requires qtyReply.None? || qtyReply.value <= 0
    ensures HandleScan(inv, code, Remove, nameReply, qtyReply) == ScanResult(inv, NoOp)
  {
  }

  /** Asking for more than is held is refused whole: nothing is clamped. */
  lemma RemoveTooMany(inv: Inventory, code: string, i: nat, q: int,
                      nameReply: Option<string>)
    requires FirstWithId(inv, code, i)
    requires 0 < q && inv[i].quantity < q
    ensures HandleScan(inv, code, Remove, nameReply, Some(q)) == ScanResult(inv, InsufficientStock)
  {
  }

  /** A removal of `q` with `0 < q <= quantity` takes exactly `q` units from
      that record, keeps the record even at zero, and touches nothing else. */
  lemma RemoveValid(inv: Inventory, code: string, i: nat, q: int,
                    nameReply: Option<string>)
    requires FirstWithId(inv, code, i)
    requires 0 < q <= inv[i].quantity
    ensures var r := HandleScan(inv, code, Remove, nameReply, Some(q));
      && |r.inventory| == |inv|
      && r.inventory[i].id == code
      && r.inventory[i].name == inv[i].name
      && r.inventory[i].quantity == inv[i].quantity - q >= 0
      && (forall k :: 0 <= k < |inv| && k != i ==> r.inventory[k] == inv[k])
      && r.outcome == Removed(q, inv[i].name, inv[i].quantity - q)
  {
  }

  /** The stock under an id after one add scan whose name prompt, if shown,
      is answered: one more for the scanned id, the same for every other. */
  lemma AddScanQuantity(inv: Inventory, code: string, name: string, other: string)
    requires name != ""
    ensures QuantityOf(HandleScan(inv, code, Add, Some(name), None).inventory, other)
         == QuantityOf(inv, other) + (if other == code then 1 else 0)
  {
    match FindIndex(inv, code)
    case Some(i) => BumpQuantity(inv, i, other);
    case None => AppendQuantity(inv, Item(code, name, 1), other);
  }

  /** Raising record `i` by one raises the stock of its id, and only that. */
  lemma BumpQuantity(inv: Inventory, i: nat, other: string)
    requires i < |inv| && FindIndex(inv, inv[i].id) == Some(i)
    ensures QuantityOf(inv[i := inv[i].(quantity := inv[i].quantity + 1)], other)
         == QuantityOf(inv, other) + (if other == inv[i].id then 1 else 0)
  {
    var bumped := inv[i].(quantity := inv[i].quantity + 1);
    FindIndexSameIds(inv, i, bumped, other);
  }

  /** Appending a record for an absent id gives that id its quantity and
      leaves every other id alone. */
  lemma AppendQuantity(inv: Inventory, x: Item, other: string)
    requires FindIndex(inv, x.id).None?
    ensures QuantityOf(inv + [x], other)
         == if other == x.id then x.quantity else QuantityOf(inv, other)
  {
    FindIndexAppend(inv, x, other);
    if other != x.id {
      match FindIndex(inv, other)
      case None =>
      case Some(j) => assert (inv + [x])[j] == inv[j];
    }
  }

  /** A remove scan never raises the stock held under any id. */
  lemma RemoveNeverRaises(inv: Inventory, code: string,
                          nameReply: Option<string>, qtyReply: Option<int>, other: string)
    ensures QuantityOf(HandleScan(inv, code, Remove, nameReply, qtyReply).inventory, other)
         <= QuantityOf(inv, other)
  {
  }

  /** One add scan together with the name the operator would type if asked. */
  datatype AddScan = AddScan(code: string, name: string)

  /** A sequence of add scans applied in order. */
  function AddAll(inv: Inventory, scans: seq<AddScan>): Inventory
    decreases |scans|
  {
    if |scans| == 0 then inv
    else AddAll(HandleScan(inv, scans[0].code, Add, Some(scans[0].name), None).inventory, scans[1..])
  }

  /** How many of `scans` read `code`. */
  function Count(scans: seq<AddScan>, code: string): nat
    decreases |scans|
  {
    if |scans| == 0 then 0
    else (if scans[0].code == code then 1 else 0) + Count(scans[1..], code)
  }

  /** After a run of add scans with every name prompt answered, each id holds
      what it held before plus the number of scans that read it. */
  lemma {:induction false} AddAllCounts(inv: Inventory, scans: seq<AddScan>, code: string)
    requires forall k :: 0 <= k < |scans| ==> scans[k].name != ""
    ensures QuantityOf(AddAll(inv, scans), code) == QuantityOf(inv, code) + Count(scans, code)
    decreases |scans|
  {
    if |scans| > 0 {
      AddScanQuantity(inv, scans[0].code, scans[0].name, code);
      AddAllCounts(HandleScan(inv, scans[0].code, Add, Some(scans[0].name), None).inventory, scans[1..], code);
    }
  }

  /** On a fresh store the stock of an id is the number of scans that read it. */
  lemma FreshStoreCounts(scans: seq<AddScan>, code: string)
    requires forall k :: 0 <= k < |scans| ==> scans[k].name != ""
    ensures QuantityOf(AddAll([], scans), code) == Count(scans, code)
  {
    AddAllCounts([], scans, code);
  }

  /** The worked examples: register, increment, refuse, and empty to zero. */
  lemma Scenarios()
    ensures HandleScan([], "ABC123", Add, Some("Bolt"), None)
         == ScanResult([Item("ABC123", "Bolt", 1)], Registered("Bolt"))
    ensures HandleScan([Item("ABC123", "Bolt", 1)], "ABC123", Add, None, None)
         == ScanResult([Item("ABC123", "Bolt", 2)], Incremented("Bolt", 2))
    ensures HandleScan([Item("ABC123", "Bolt", 2)], "ABC123", Remove, None, Some(3))
         == ScanResult([Item("ABC123", "Bolt", 2)], InsufficientStock)
    ensures HandleScan([Item("ABC123", "Bolt", 2)], "ABC123", Remove, None, Some(2))
         == ScanResult([Item("ABC123", "Bolt", 0)], Removed(2, "Bolt", 0))
  {
  }
}

=== FILE: search.dfy ===
/** The list view's search: a case-insensitive substring match against an
    item's name or id, keeping the matching items in their stored order.
    Lower-casing is modelled for ASCII letters only. */
module Search {
  import opened Inventory

  /** ASCII `toLowerCase` on one character. */
  function LowerChar(c: char): char {
    if 'A' <= c <= 'Z' then (c as int + 32) as char else c
  }

  /** `c` and `d` are the same ASCII letter in the two cases, or the same character. */
  predicate SameUpToCase(c: char, d: char) {
    || c == d
    || ('A' <= c <= 'Z' && d as int == c as int + 32)
    || ('A' <= d <= 'Z' && c as int == d as int + 32)
  }

  /** Folding leaves no upper-case letter behind and folding again changes nothing. */
  lemma LowerCharFolds(c: char)
    ensures !('A' <= LowerChar(c) <= 'Z')
    ensures LowerChar(LowerChar(c)) == LowerChar(c)
  {
  }

  /** Two characters fold to the same character exactly when they are equal
      up to ASCII letter case. */
  lemma LowerCharSameUpToCase(c: char, d: char)
    ensures LowerChar(c) == LowerChar(d) <==> SameUpToCase(c, d)
  {
  }

  function Lower(s: string): (r: string)
    ensures |r| == |s|
    ensures forall k :: 0 <= k < |s| ==> r[k] == LowerChar(s[k])
    decreases |s|
  {
    if |s| == 0 then [] else [LowerChar(s[0])] + Lower(s[1..])
  }

  /** Lower-casing twice is lower-casing once. */
  lemma LowerIdempotent(s: string)
    ensures Lower(Lower(s)) == Lower(s)
  {
  }

  /** `needle` occurs in `hay` starting at position `i`. */
  ghost predicate OccursAt(needle: string, hay: string, i: int) {
    0 <= i && i + |needle| <= |hay| && hay[i..i + |needle|] == needle
  }

  /** `needle` occurs somewhere in `hay` as a contiguous block. */
  ghost predicate IsSubstring(needle: string, hay: string) {
    exists i :: OccursAt(needle, hay, i)
  }

  /** `String.prototype.includes`: try each start position in turn. */
  function Includes(hay: string, needle: string): (r: bool)
    ensures needle == [] ==> r
    ensures r ==> |needle| <= |hay|
    ensures needle == hay ==> r
    decreases |hay|
  {
    if needle <= hay then true
    else if |hay| == 0 then false
    else Includes(hay[1..], needle)
  }

  /** The position-by-position search finds `needle` exactly when it occurs. */
  lemma {:induction false} IncludesIsSubstring(hay: string, needle: string)
    ensures Includes(hay, needle) <==> IsSubstring(needle, hay)
    decreases |hay|
  {
    if needle <= hay {
      assert OccursAt(needle, hay, 0);
    } else if |hay| == 0 {
      forall i
        ensures !OccursAt(needle, hay, i)
      {
      }
    } else {
      IncludesIsSubstring(hay[1..], needle);
      SubstringOfTail(hay, needle);
    }
  }

  /** When `needle` is not a prefix, it occurs in `hay` exactly when it occurs
      in `hay` without its first character. */
  lemma SubstringOfTail(hay: string, needle: string)
    requires |hay| > 0 && !(needle <= hay)
    ensures IsSubstring(needle, hay) <==> IsSubstring(needle, hay[1..])
  {
    if IsSubstring(needle, hay) {
      var i :| OccursAt(needle, hay, i);
      if i > 0 {
        assert hay[1..][i - 1..i - 1 + |needle|] == hay[i..i + |needle|];
        assert OccursAt(needle, hay[1..], i - 1);
      }
    }
    if IsSubstring(needle, hay[1..]) {
      var i :| OccursAt(needle, hay[1..], i);
      assert hay[1..][i..i + |needle|] == hay[i + 1..i + 1 + |needle|];
      assert OccursAt(needle, hay, i + 1);
    }
  }

  /** The filter's test for one item. */
  predicate Matches(item: Item, search: string)
    ensures search == [] ==> Matches(item, search)
    ensures Matches(item, search) ==> |search| <= |item.name| || |search| <= |item.id|
    ensures Lower(search) == Lower(item.name) ==> Matches(item, search)
  {
    Includes(Lower(item.name), Lower(search)) || Includes(Lower(item.id), Lower(search))
  }

  /** `inventory.filter(...)`: the items that match, in their stored order. */
  function Filter(inv: Inventory, search: string): (r: Inventory)
    ensures |r| <= |inv|
    // sound: everything kept is a stored item that matches
    ensures forall x :: x in r ==> x in inv && Matches(x, search)
    // complete: every stored item that matches is kept
    ensures forall x :: x in inv && Matches(x, search) ==> x in r
    decreases |inv|
  {
    if |inv| == 0 then []
    else if Matches(inv[0], search) then [inv[0]] + Filter(inv[1..], search)
    else Filter(inv[1..], search)
  }

  /** `idx` picks out `a` from `b` at strictly increasing positions. */
  ghost predicate Embeds<T>(a: seq<T>, b: seq<T>, idx: seq<nat>) {
    && |idx| == |a|
    && (forall k :: 0 <= k < |idx| ==> idx[k] < |b| && a[k] == b[idx[k]])
    && (forall k, l :: 0 <= k < l < |idx| ==> idx[k] < idx[l])
  }

  ghost predicate IsSubsequence<T>(a: seq<T>, b: seq<T>) {
    exists idx :: Embeds(a, b, idx)
  }

  /** Positions into `b[1..]` read as positions into `b`. */
  function Shift(idx: seq<nat>): (r: seq<nat>)
    ensures |r| == |idx|
    ensures forall k :: 0 <= k < |idx| ==> r[k] == idx[k] + 1
  {
    seq(|idx|, k requires 0 <= k < |idx| => idx[k] + 1)
  }

  /** An embedding into the tail of `b` is one into `b`, and extends to one of
      `[b[0]] + a` by picking position 0 first. */
  lemma EmbedsShift<T>(a: seq<T>, b: seq<T>, idx: seq<nat>)
    requires |b| > 0 && Embeds(a, b[1..], idx)
    ensures Embeds(a, b, Shift(idx))
    ensures Embeds([b[0]] + a, b, [0] + Shift(idx))
  {
  }

  /** Position `k > 0` of `b` is picked by `Shift(idx)` exactly when `k - 1`
      of `b[1..]` is picked by `idx`; position 0 never is. */
  lemma ShiftMembers(idx: seq<nat>, k: nat)
    ensures k in Shift(idx) <==> k > 0 && k - 1 in idx
  {
    var s := Shift(idx);
    if k in s {
      var j :| 0 <= j < |s| && s[j] == k;
      assert idx[j] == k - 1;
    }
    if k > 0 && k - 1 in idx {
      var j :| 0 <= j < |idx| && idx[j] == k - 1;
      assert s[j] == k;
    }
  }

  /** The positions in `inv` of the items the filter keeps: exactly the
      positions whose item matches, so repeated records are kept as often
      as they are stored. */
  lemma {:induction false} FilterPositions(inv: Inventory, search: string) returns (idx: seq<nat>)
    ensures Embeds(Filter(inv, search), inv, idx)
    ensures forall k :: 0 <= k < |inv| ==> (k in idx <==> Matches(inv[k], search))
    decreases |inv|
  {
    if |inv| == 0 {
      idx := [];
    } else {
      var rest := FilterPositions(inv[1..], search);
      EmbedsShift(Filter(inv[1..], search), inv, rest);
      if Matches(inv[0], search) {
        idx := [0] + Shift(rest);
      } else {
        idx := Shift(rest);
      }
      forall k | 0 <= k < |inv|
        ensures k in idx <==> Matches(inv[k], search)
      {
        ShiftMembers(rest, k);
        if k > 0 {
          assert inv[1..][k - 1] == inv[k];
        }
      }
    }
  }

  /** Each record value appears in the result as often as in the store when
      it matches, and not at all otherwise. */
  lemma {:induction false} FilterCounts(inv: Inventory, search: string, x: Item)
    ensures multiset(Filter(inv, search))[x] == if Matches(x, search) then multiset(inv)[x] else 0
    decreases |inv|
  {
    if |inv| > 0 {
      FilterCounts(inv[1..], search, x);
      assert inv == [inv[0]] + inv[1..];
      assert multiset(inv) == multiset([inv[0]]) + multiset(inv[1..]);
      if Matches(inv[0], search) {
        var r := Filter(inv, search);
        assert r == [inv[0]] + Filter(inv[1..], search);
        assert multiset(r) == multiset([inv[0]]) + multiset(Filter(inv[1..], search));
      }
    }
  }

  /** The filter keeps a subsequence of the store, in the same order. */
  lemma FilterIsSubsequence(inv: Inventory, search: string)
    ensures IsSubsequence(Filter(inv, search), inv)
  {
    var idx := FilterPositions(inv, search);
  }

  /** The empty search shows the whole store unchanged. */
  lemma {:induction false} FilterEmptySearch(inv: Inventory)
    ensures Filter(inv, "") == inv
    decreases |inv|
  {
    if |inv| > 0 {
      assert Lower("") == "";
      assert Matches(inv[0], "");
      FilterEmptySearch(inv[1..]);
    }
  }

  /** Searching for `search` and for its lower-case form shows the same list. */
  lemma {:induction false} FilterCaseInsensitive(inv: Inventory, search: string)
    ensures Filter(inv, search) == Filter(inv, Lower(search))
    decreases |inv|
  {
    if |inv| > 0 {
      LowerIdempotent(search);
      assert Matches(inv[0], search) == Matches(inv[0], Lower(search));
      FilterCaseInsensitive(inv[1..], search);
    }
  }

  /** The filter's test, read through the substring definition: the folded
      search text occurs in the folded name or in the folded id. */
  lemma MatchesMeansSubstring(item: Item, search: string)
    ensures Matches(item, search) <==>
      IsSubstring(Lower(search), Lower(item.name)) || IsSubstring(Lower(search), Lower(item.id))
  {
    IncludesIsSubstring(Lower(item.name), Lower(search));
    IncludesIsSubstring(Lower(item.id), Lower(search));
  }

  /** Searching for an item's id in any letter case shows that item. */
  lemma SearchFindsIdInAnyCase(inv: Inventory, item: Item, search: string)
    requires item in inv && Lower(search) == Lower(item.id)
    ensures item in Filter(inv, search)
  {
    assert Lower(item.id) <= Lower(item.id);
  }

  /** Lookup by id is exact while the list search folds case: a scan of
      "abc123" does not find the record "ABC123", but searching for it does. */
  lemma LookupExactSearchFolded()
    ensures FindIndex([Item("ABC123", "Bolt", 1)], "abc123").None?
    ensures Filter([Item("ABC123", "Bolt", 1)], "abc123") == [Item("ABC123", "Bolt", 1)]
  {
    var item := Item("ABC123", "Bolt", 1);
    var folded: string := "abc123";
    assert LowerChar('A') == 'a' && LowerChar('B') == 'b' && LowerChar('C') == 'c';
    assert LowerChar('a') == 'a' && LowerChar('b') == 'b' && LowerChar('c') == 'c';
    assert LowerChar('1') == '1' && LowerChar('2') == '2' && LowerChar('3') == '3';
    assert Lower(item.id) == folded by {
      var l := Lower(item.id);
      assert l[0] == 'a' && l[1] == 'b' && l[2] == 'c';
      assert l[3] == '1' && l[4] == '2' && l[5] == '3';
    }
    assert Lower(folded) == folded by {
      var l := Lower(folded);
      assert l[0] == 'a' && l[1] == 'b' && l[2] == 'c';
      assert l[3] == '1' && l[4] == '2' && l[5] == '3';
    }
    assert Includes(Lower(item.id), Lower(folded));
    assert [item][1..] == [];
  }
}

=== FILE: session.dfy ===
/** The application shell: which role is signed in, which screen is shown,
    and the store the screens act on. Every user action is a button (or a
    scan) that is only on screen in some states; an action whose control is
    not rendered cannot happen, so it leaves the state as it is. */
module Session {
  import opened Wrappers
  import opened Inventory
  import opened Scan

  /** `'admin'` and `'user'`; no role (`null`) shows the role chooser. */
  datatype Role = Admin | User

  datatype View = Dashboard | AddView | RemoveView | ListView

  datatype App = App(role: Option<Role>, view: View, inventory: Inventory)

  datatype Event =
    | ChooseAdmin                 // "Admin Access" on the role chooser
    | ChooseStaff                 // "Staff Access" on the role chooser
    | Logout                      // header button
    | OpenAdd                     // "Add Stock" on the dashboard
    | OpenRemove                  // "Remove Stock" on the dashboard
    | OpenList                    // "View Inventory" on the dashboard
    | Back                        // "Back" on the add, remove and list screens
    | Scanned(code: string, nameReply: Option<string>, qtyReply: Option<int>)

  /** A fresh session over the store restored from the browser. */
  function Start(saved: Inventory): App {
    App(None, Dashboard, saved)
  }

  /** Whether the control that raises `e` is rendered in state `a`. */
  predicate OnScreen(a: App, e: Event) {
    match e
    case ChooseAdmin => a.role.None?
    case ChooseStaff => a.role.None?
    case Logout => a.role.Some?
    case OpenAdd => a.role == Some(Admin) && a.view == Dashboard
    case OpenRemove => a.role.Some? && a.view == Dashboard
    case OpenList => a.role.Some? && a.view == Dashboard
    case Back => a.role.Some? && a.view != Dashboard
    case Scanned(_, _, _) => a.role.Some? && (a.view == AddView || a.view == RemoveView)
  }

  function Step(a: App, e: Event): (r: App)
    // a control that is not rendered cannot be used
    ensures !OnScreen(a, e) ==> r == a
    // only a scan touches the store, and a scan moves neither role nor screen
    ensures !e.Scanned? ==> r.inventory == a.inventory
    ensures e.Scanned? ==> r.role == a.role && r.view == a.view
    // the role changes only through the role chooser or logout
    ensures r.role != a.role ==> e == ChooseAdmin || e == ChooseStaff || e == Logout
    // a stored record keeps its id and name through every step
    ensures |a.inventory| <= |r.inventory|
    ensures forall k :: 0 <= k < |a.inventory| ==>
              r.inventory[k].id == a.inventory[k].id && r.inventory[k].name == a.inventory[k].name
  {
    if !OnScreen(a, e) then a
    else
      match e
      case ChooseAdmin => a.(role := Some(Admin))
      case ChooseStaff => a.(role := Some(User))
      case Logout => a.(role := None, view := Dashboard)
      case OpenAdd => a.(view := AddView)
      case OpenRemove => a.(view := RemoveView)
      case OpenList => a.(view := ListView)
      case Back => a.(view := Dashboard)
      case Scanned(code, nameReply, qtyReply) =>
        var mode := if a.view == AddView then Add else Remove;
        a.(inventory := HandleScan(a.inventory, code, mode, nameReply, qtyReply).inventory)
  }

  function Run(a: App, events: seq<Event>): App
    decreases |events|
  {
    if |events| == 0 then a else Run(Step(a, events[0]), events[1..])
  }

  /** What every reachable state satisfies whatever store it started from:
      signed-out sessions sit on the dashboard and only an admin is ever on
      the add screen. */
  ghost predicate ScreensConsistent(a: App) {
    && (a.role.None? ==> a.view == Dashboard)
    && (a.view == AddView ==> a.role == Some(Admin))
  }

  /** The screen facts together with the store invariants. */
  ghost predicate Consistent(a: App) {
    ScreensConsistent(a) && Valid(a.inventory)
  }

  /** Logging out clears the role and returns to the dashboard, keeping the store. */
  lemma LogoutResets(a: App)
    requires a.role.Some?
    ensures Step(a, Logout) == App(None, Dashboard, a.inventory)
  {
  }

  /** The role buttons set the role directly and leave the view alone. */
  lemma ChooseRoleSets(a: App)
    requires a.role.None?
    ensures Step(a, ChooseAdmin) == a.(role := Some(Admin))
    ensures Step(a, ChooseStaff) == a.(role := Some(User))
  {
  }

  /** The add screen is entered only from the dashboard, only by an admin,
      and only through "Add Stock". */
  lemma AddOnlyByAdmin(a: App, e: Event)
    requires a.view != AddView && Step(a, e).view == AddView
    ensures e == OpenAdd && a.view == Dashboard && a.role == Some(Admin)
  {
  }

  /** An admin's "Add Stock" on the dashboard opens the add screen and
      changes nothing else. */
  lemma AdminOpensAdd(a: App)
    requires a.role == Some(Admin) && a.view == Dashboard
    ensures Step(a, OpenAdd) == a.(view := AddView)
  {
  }

  /** Controls that are not rendered do nothing: no scanner outside the add
      and remove screens, no dashboard buttons off the dashboard, no role
      buttons once a role is set, no header or "Back" on the role chooser,
      and no "Back" on the dashboard. */
  lemma ControlsOffScreen(a: App, code: string, nameReply: Option<string>, qtyReply: Option<int>)
    ensures a.view == Dashboard || a.view == ListView ==> Step(a, Scanned(code, nameReply, qtyReply)) == a
    ensures a.role.None? ==> Step(a, Scanned(code, nameReply, qtyReply)) == a
    ensures a.view != Dashboard ==>
      Step(a, OpenAdd) == a && Step(a, OpenRemove) == a && Step(a, OpenList) == a
    ensures a.role.None? ==>
      Step(a, OpenAdd) == a && Step(a, OpenRemove) == a && Step(a, OpenList) == a
    ensures a.role.Some? ==> Step(a, ChooseAdmin) == a && Step(a, ChooseStaff) == a
    ensures a.role.None? ==> Step(a, Logout) == a && Step(a, Back) == a
    ensures a.view == Dashboard ==> Step(a, Back) == a
  {
  }

  /** Either role reaches the remove and list screens from the dashboard,
      and staff can never reach the add screen. */
  lemma RemoveAndListForEitherRole(a: App)
    requires a.role.Some? && a.view == Dashboard
    ensures Step(a, OpenRemove).view == RemoveView
    ensures Step(a, OpenList).view == ListView
    ensures a.role == Some(User) ==> Step(a, OpenAdd) == a
  {
  }

  /** "Back" returns every other screen to the dashboard and changes nothing else. */
  lemma BackToDashboard(a: App)
    requires a.role.Some? && a.view != Dashboard
    ensures Step(a, Back) == a.(view := Dashboard)
  {
  }

  /** A scan on the add screen adds stock: one unit more under the scanned
      id once the name prompt, if shown, is answered, and the same under
      every other id. */
  lemma ScanOnAddScreen(a: App, code: string, name: string, other: string)
    requires a.role.Some? && a.view == AddView && name != ""
    ensures QuantityOf(Step(a, Scanned(code, Some(name), None)).inventory, other)
         == QuantityOf(a.inventory, other) + (if other == code then 1 else 0)
  {
    AddScanQuantity(a.inventory, code, name, other);
  }

  /** A scan on the remove screen removes stock: a valid quantity `q` comes
      off the scanned record, which is kept, and every other record stays. */
  lemma ScanOnRemoveScreen(a: App, code: string, i: nat, q: int)
    requires a.role.Some? && a.view == RemoveView
    requires FirstWithId(a.inventory, code, i) && 0 < q <= a.inventory[i].quantity
    ensures var r := Step(a, Scanned(code, None, Some(q))).inventory;
      && |r| == |a.inventory|
      && r[i].id == code
      && r[i].quantity == a.inventory[i].quantity - q
      && (forall k :: 0 <= k < |r| && k != i ==> r[k] == a.inventory[k])
  {
    RemoveValid(a.inventory, code, i, q, None);
  }

  /** Every step keeps the screen facts. */
  lemma StepScreens(a: App, e: Event)
    requires ScreensConsistent(a)
    ensures ScreensConsistent(Step(a, e))
  {
  }

  /** Any sequence of user actions keeps the screen facts. */
  lemma {:induction false} RunScreens(a: App, events: seq<Event>)
    requires ScreensConsistent(a)
    ensures ScreensConsistent(Run(a, events))
    decreases |events|
  {
    if |events| > 0 {
      StepScreens(a, events[0]);
      RunScreens(Step(a, events[0]), events[1..]);
    }
  }

  /** Every state reachable from a fresh session, over any restored store,
      satisfies the screen facts. */
  lemma ReachableScreens(saved: Inventory, events: seq<Event>)
    ensures ScreensConsistent(Run(Start(saved), events))
  {
    RunScreens(Start(saved), events);
  }

  /** Every step keeps a consistent state consistent. */
  lemma StepConsistent(a: App, e: Event)
    requires Consistent(a)
    ensures Consistent(Step(a, e))
  {
  }

  /** Every state reachable from a fresh session over a valid store is consistent. */
  lemma {:induction false} RunConsistent(a: App, events: seq<Event>)
    requires Consistent(a)
    ensures Consistent(Run(a, events))
    decreases |events|
  {
    if |events| > 0 {
      StepConsistent(a, events[0]);
      RunConsistent(Step(a, events[0]), events[1..]);
    }
  }

  /** A session started over a valid store stays consistent whatever the user does. */
  lemma ReachableConsistent(saved: Inventory, events: seq<Event>)
    requires Valid(saved)
    ensures Consistent(Run(Start(saved), events))
  {
    RunConsistent(Start(saved), events);
  }

  /** Stock is only ever added by an admin: in a reachable state, over any
      store, a step that makes the store longer or raises the stock under an
      id is a scan taken by an admin on the add screen. */
  lemma StockGrowsOnlyForAdmin(a: App, e: Event, code: string)
    requires ScreensConsistent(a)
    requires |Step(a, e).inventory| > |a.inventory|
          || QuantityOf(Step(a, e).inventory, code) > QuantityOf(a.inventory, code)
    ensures a.role == Some(Admin) && a.view == AddView && e.Scanned?
  {
    if e.Scanned? {
      RemoveNeverRaises(a.inventory, e.code, e.nameReply, e.qtyReply, code);
    }
  }
}

=== FILE: wrappers.dfy ===
/** The optional value used for "not found" lookups and for an operator's
    reply to a prompt that may have been cancelled. */
module Wrappers {

  datatype Option<+T> = None | Some(value: T)
}
